=== FILE: README.md ===
# Mango Admi backend — a Dafny model

This project models the request-handling core of the Mango Admi backend, an
Express service over PostgreSQL. It covers:

- user signup, with its ordered validation checks, the email-uniqueness check
  and the password digest;
- reading, listing, partially updating and deleting users;
- contact-form submission, listing, lookup and delete;
- the notification mails each signup and submission triggers, and the HTML
  templates they carry;
- the central error-handling middleware and the CORS origin check.

Every handler is a pure function. It takes the request, the table it works on
and the capabilities the code reaches for outside itself:

- the password hash (`hash: string -> string`, standing for bcrypt);
- the environment (`Env`: ADMIN_EMAIL, OWNER_EMAIL, FROM_EMAIL, FRONTEND_URL);
- the locale-formatted time text (`submittedOn`);
- the mail transport (`transport: Mail -> Delivery`).

A handler that writes returns an `Outcome`: the response (status and JSON
body), the table afterwards, and the mails it handed to the transport, in
order. The read handlers (`GetUser`, `GetAllUsers`, `GetContactForm`,
`GetContactForms`) return only the response.

A table (module `Table`) is a map from SERIAL id to row, plus the next id and a
clock that issues timestamps. The invariant `Table.Valid` holds for any table
built by the modelled operations. It says:

- each row sits under its own id, and every id is below the next id;
- every timestamp was issued before the clock, and `createdAt <= updatedAt`;
- a larger id was created strictly later.

Under that invariant, `ORDER BY "createdAt" DESC` is the same as listing ids from
largest to smallest, which is how `FindAll` is defined. The `users` table also
keeps the UNIQUE constraint on email (`UserModel.Invariant`), and every
operation that writes preserves both invariants.

JavaScript truthiness is explicit:

- an optional string is truthy when it is present and non-empty (`Js.Truthy`);
- `agreeToTerms` is truthy only when it is `true` (`Js.TruthyBool`);
- `x || fallback` is `Js.Or`, and `x || null` is `Js.OrNull`.

The handlers await the two notifications one after the other, each inside its
own try/catch, before answering. The model records both mails, admin first, and
proves that the response and the table do not depend on what the transport
reports.

## Model

| member | source | states |
|---|---|---|
| Server.HandleError | src/index.js:58-74 | SQLSTATE 23505 answers 409 "Duplicate entry" and 23502 answers 400 "Missing required field", taking precedence over the error's own fields. Otherwise the status is the error's truthy status or 500, and the message is its truthy message or "Internal server error". The message is never empty |
| Server.AllowedOrigins | src/index.js:15-20 | An origin is on the list iff it is one of the three fixed origins or equals a truthy FRONTEND_URL. The filter leaves no empty entry, the list has 3 or 4 entries, and the fixed three come first |
| Server.CheckOrigin | src/index.js:24-31 | A request is allowed iff it has no (truthy) origin or its origin is on the allowed list. A rejection carries "Not allowed by CORS" |
| Server.CorsRejectionAnswer | src/index.js:58-74 | A CORS rejection ("Not allowed by CORS", src/index.js:30) reaches the error middleware without status or code and is answered 500 with that message |
| Server.CheckOriginAllows | src/index.js:15-31 | The allowed origins spelled out: a present origin passes iff it is localhost:8080, localhost:8081, the vercel app, or a set FRONTEND_URL |
| Table.EmptyIsValid | src/config/database.js:36-64 | A fresh table is empty and satisfies the table invariant |
| Table.Insert | src/models/User.js:13-22 | INSERT ... RETURNING * takes the next SERIAL id and the current time. It adds exactly one new key, keeps every old row, and makes the new row the newest. It preserves the invariant |
| Table.ConsumeId | src/config/database.js:38 | An INSERT the database refuses still draws its SERIAL id: no row changes, the next id moves on by one, and the invariant holds |
| Table.Find | src/models/User.js:34-39 | `SELECT * ... WHERE id = $1` is null iff no row has the id, and otherwise that id's row |
| Table.Put | src/models/User.js:80-87 | The UPDATE of an existing row replaces just that row and keeps the key set. With the id, createdAt kept and updatedAt set to the current time, the invariant holds |
| Table.Delete | src/models/User.js:93-97 | DELETE by primary key removes just that id: the table afterwards is the old one without that key, nothing added and the counters unchanged. The number of rows drops by exactly rowCount |
| Table.RowCountDeleted | src/models/User.js:97 | `(rowCount ?? 0) > 0` is true iff rowCount is set and positive |
| Table.Remove | src/models/ContactForm.js:37-42 | A repository delete reports true iff the id was present. Afterwards the table is exactly the old one without that id, nothing added, and the invariant holds |
| Table.IdsBelow | src/models/User.js:42-47 | Lists exactly the stored ids below the bound |
| Table.IdsBelowDescending | src/models/User.js:42-47 | The listed ids are strictly decreasing |
| Table.FindAll | src/models/User.js:42-47 | The listing (also `ContactForm.findAll`, src/models/ContactForm.js:29-34) holds only stored rows. On a valid table each listed row is the row stored under its own id |
| Table.FindAllNewestFirst | src/models/User.js:42-47 | On a valid table the listing holds every stored row, without repeats, in strictly decreasing createdAt order |
| UserModel.Create | src/models/User.js:7-23 | A repeated email fails with SQLSTATE 23505 (the UNIQUE column of src/config/database.js:41), and only then; the refused INSERT leaves the rows as they were but spends its SERIAL id. On success the stored password is the hash of the given one, the other columns are as given, the row takes the next id, and the table invariant and email uniqueness are preserved |
| UserModel.FirstWithEmail | src/models/User.js:27-30 | A row of the result set with the email, and none iff no row in the set has it |
| UserModel.FoundIsStored | src/models/User.js:26-31 | A row the email lookup finds in the result set belongs to a stored user with that email |
| UserModel.TakenIsFound | src/models/User.js:26-31 | On a valid table, a taken email is found by the lookup |
| UserModel.FindByEmail | src/models/User.js:26-31 | A returned row has the email. On a valid table a row is found iff the email is taken. With unique emails it is the only row holding that email |
| UserModel.FindById | src/models/User.js:34-39 | Null iff no row has the id. Otherwise it returns that id's row |
| UserModel.SuppliedCount | src/models/User.js:58-75 | At most three fields are supplied, and none iff no field is truthy |
| UserModel.AddIfTruthyNumbers | src/models/User.js:58-71 | Appending a truthy field's clause keeps the statement numbered: clause i binds placeholder $(i+1) to the i-th supplied value |
| UserModel.BuildUpdate | src/models/User.js:54-85 | No statement iff no field is truthy. Otherwise there is one numbered SET clause per truthy field, in the order firstName, lastName, phone, then the updatedAt refresh. The id is bound to the last placeholder, which the WHERE clause uses |
| UserModel.Apply | src/models/User.js:77-87 | Executing a SET list on a row never touches the id, createdAt, email, password or terms flag |
| UserModel.ApplyMerges | src/models/User.js:77-87 | Running the built statement on a row gives the field-level merge, where each truthy field replaces its column, with updatedAt set to the current time. The id, email, password, terms flag and createdAt are kept |
| UserModel.ApplySupplied | src/models/User.js:58-83 | Clauses i.. of a built statement perform the remaining supplied assignments and then the timestamp refresh |
| UserModel.SetAllConcat | src/models/User.js:58-71 | Applying the supplied assignments in two parts gives the same result as applying them all at once |
| UserModel.MergeIsFold | src/models/User.js:58-71 | Folding the supplied assignments over a row is the field-level merge |
| UserModel.UpdateUser | src/models/User.js:50-90 | Null, with the table untouched, iff no field is truthy or no row has the id. Otherwise the row becomes the merge with updatedAt refreshed, and nothing else changes. The invariants are preserved |
| UserModel.DeleteUser | src/models/User.js:93-98 | True iff the user existed. Afterwards the table is exactly the old one without that id, nothing added, findById is null for the id, and the invariants hold |
| UserController.WithoutPassword | src/controllers/userController.js:87-90 | Rest destructuring drops exactly the password key and keeps every other key's value |
| UserController.PublicUser | src/controllers/userController.js:65-71 | The signup response's user has exactly id, firstName, lastName, email and phone, each as stored |
| UserController.NotifySignUp | src/controllers/userController.js:40-61 | Two mails in order, both from the sender. First the "New User Registration" notice to the admin recipient, with the admin subject and template. Then the acknowledgement to the new user's own address, greeting `firstName || email`. Each carries the transport's own answer |
| UserController.Register | src/controllers/userController.js:27-72 | 201 iff the email is not taken. A constraint failure goes through the error middleware to 409 "Duplicate entry": no row is stored, no mail is sent, and the SERIAL id drawn for the failed INSERT is spent. On 201 the new row holds the hashed password, the body carries the public columns, and the mails are exactly the two notifications about the new user (`NotifySignUp`) |
| UserController.FirstFailure | src/controllers/userController.js:8-19 | The checks run in order, and each message is given iff its check is the first to fail: "All fields are required" iff a required field is falsy, "Passwords do not match" iff the fields are present and the confirmation differs, "You must agree to the terms and conditions" iff only the terms check fails. No message iff the input is accepted |
| UserController.SignUp | src/controllers/userController.js:4-76 | 400 iff a check fails, with the first failing check's message. 409 iff the input is accepted and the email is taken; 201 iff the input is accepted and the email is free. Unless 201, no row is stored and no mail is sent; a 400 leaves the table exactly as it was. On 201 the row and the body are given in full, the mails are exactly the two notifications about the new user (`NotifySignUp`), and the invariants are preserved |
| UserController.SignUpIgnoresDelivery | src/controllers/userController.js:41-61 | A failed notification never changes the outcome: the response and the table are the same whatever the transport reports |
| UserController.SignUpConflictMessage | src/controllers/userController.js:21-25 | On a valid table a 409 always comes from the handler's own check, so the body is "Email already registered" and never the constraint's "Duplicate entry" |
| UserController.SignUpTwiceConflicts | src/controllers/userController.js:21-25 | After a successful signup, an accepted signup with the same email answers 409 "Email already registered" and stores nothing |
| UserController.GetUser | src/controllers/userController.js:78-94 | 404 "User not found" iff the id is absent. Otherwise the row with every column except the password |
| UserController.GetAllUsers | src/controllers/userController.js:96-110 | One entry per listed user: every column except the password |
| UserController.GetAllUsersNewestFirst | src/controllers/userController.js:96-106 | On a valid table the user list is in strictly decreasing createdAt order |
| UserController.GetAllUsersComplete | src/controllers/userController.js:96-106 | On a valid table every stored user appears in the list, without its password |
| UserController.UpdateUserAsWritten | src/controllers/userController.js:112-130 | The handler as written: 404 iff the repository returns null, 200 otherwise. On 200 the stored row is the merge with updatedAt refreshed, no other row changes, and the body carries the full returned row. No mail is sent and the invariants are preserved |
| UserController.UpdateUserAsWrittenLeaksDigest | src/controllers/userController.js:123-126 | The as-written 200 body contains the stored password digest |
| UserController.UpdateUser | src/controllers/userController.js:112-130 | Corrected handler, see ## Findings. 404 "User not found", with nothing changed, iff no field is truthy or the id is absent, and 200 otherwise. On 200 the stored row is the merge with updatedAt refreshed, no other row changes, and the body carries it without its password. No mail is sent and the invariants are preserved |
| UserController.DeleteUser | src/controllers/userController.js:132-145 | 404 iff the id is absent, with nothing changed, and 200 otherwise. After a 200 the table is exactly the old one without that user, so getUser answers 404 for the id and every other user is kept. No mail is sent |
| ContactModel.Create | src/models/ContactForm.js:5-18 | The subject is stored iff truthy, otherwise null. The service type is the truthy given one, otherwise 'Other'. Other columns are as given. The row takes the next id, and the invariant holds: no stored subject is empty and the service type is always set |
| ContactModel.RepeatSubmissionsKept | src/models/ContactForm.js:5-18 | Submitting the same form twice stores two distinct rows, both kept |
| ContactModel.FindById | src/models/ContactForm.js:21-26 | Null iff no row has the id. Otherwise it returns that id's row |
| ContactModel.Delete | src/models/ContactForm.js:37-42 | True iff the form existed. Afterwards the table is exactly the old one without that id, nothing added, findById is null for the id, and the invariant holds |
| ContactController.NotifySubmission | src/controllers/contactController.js:24-39 | Two mails in order, both from the sender. First the stored submission to the admin recipient, with the admin subject and template. Then the acknowledgement to the submitter's email, greeted by first name or else by email. Each carries the transport's own answer |
| ContactController.SubmitContactForm | src/controllers/contactController.js:4-47 | 400 iff a required field is falsy, with nothing stored or sent. Otherwise 201 with exactly one new row holding the fields, a truthy subject stored unchanged (otherwise null), the truthy service type (otherwise 'Other'), and the thank-you body carrying that row. The mails are exactly the two notifications about the stored row (`NotifySubmission`), and the invariant is preserved |
| ContactController.SubmitIgnoresDelivery | src/controllers/contactController.js:25-39 | A failed notification never changes the outcome: the response and the table are the same whatever the transport reports |
| ContactController.SubmitDefaultsExample | src/models/ContactForm.js:14 | A submission with no subject and an empty service type is accepted and stored with a null subject and service type "Other" |
| ContactController.GetContactForms | src/controllers/contactController.js:49-56 | 200 with one entry per listed form, carrying all its columns |
| ContactController.GetContactFormsNewestFirst | src/controllers/contactController.js:49-56 | On a valid table the listing is in strictly decreasing createdAt order |
| ContactController.GetContactFormsComplete | src/controllers/contactController.js:49-56 | On a valid table every stored form appears in the listing |
| ContactController.GetContactForm | src/controllers/contactController.js:58-71 | 404 "Contact form not found" iff the id is absent. Otherwise 200 with that form |
| ContactController.DeleteContactForm | src/controllers/contactController.js:73-86 | 404 iff the id is absent, with nothing changed, and 200 otherwise. After a 200 the table is exactly the old one without that form, so getContactForm answers 404 for the id and every other form is kept. No mail is sent |
| EmailService.Sender | src/services/emailService.js:7 | The sender is the truthy FROM_EMAIL, otherwise noreply@mangoadmi.in. It is never empty |
| EmailService.SendEmail | src/services/emailService.js:4-31 | The mail carries the sender and the given recipient, subject and html. The transport's answer is returned unchanged, so a failure reaches the caller |
| EmailService.AdminRecipient | src/services/emailService.js:36-63 | The truthy ADMIN_EMAIL, otherwise the truthy OWNER_EMAIL, otherwise admin@mangoadmi.in |
| EmailService.AdminSubject | src/services/emailService.js:64 | "New Contact Form: " then the truthy subject or else the first name, then the last name |
| EmailService.ServiceTypeText | src/services/emailService.js:54 | The truthy service type, otherwise "Not specified" |
| EmailService.SubjectParagraph | src/services/emailService.js:55 | The subject paragraph is non-empty iff the subject is truthy, and then quotes it |
| EmailService.BreakLinesRemovesNewlines | src/services/emailService.js:57 | No newline survives the global replacement |
| EmailService.BreakLinesKeepsPlainText | src/services/emailService.js:57 | Text without newlines is unchanged |
| EmailService.BreakLinesLength | src/services/emailService.js:57 | Each newline grows the text by three characters: "\n" becomes "<br>" |
| EmailService.BreakLinesConcat | src/services/emailService.js:57 | The global replacement distributes over concatenation |
| EmailService.BreakLinesIdempotent | src/services/emailService.js:57 | Replacing twice is the same as replacing once |
| EmailService.SendContactFormToAdmin | src/services/emailService.js:33-67 | Sent from the sender to the admin recipient with the admin subject and template. The transport's answer is passed back |
| EmailService.SendResponseToClient | src/services/emailService.js:69-97 | Sent to the client's own address with the fixed subject and the acknowledgement greeting the given name. The transport's answer is passed back |
| EmailService.ClientName | src/controllers/contactController.js:34 | `firstName || email` |

## Left out

- The connection pool, table creation and process start-up (src/config/database.js, `app.listen`, the health route and the 404 route) are left out. They do I/O and decide nothing the handlers depend on. The tables' columns are reflected in the row datatypes.
- The routers (src/routes/) only bind paths to handlers, so they are not modelled. Ids arrive as naturals: `Number(id)` on a non-numeric path segment (NaN) is not modelled.
- The 32-bit range of the `id SERIAL` column (src/config/database.js:38) is not modelled. Ids are unbounded naturals. In PostgreSQL an id above 2147483647 in `WHERE id = $1` fails with SQLSTATE 22003, and the error middleware answers 500. The model instead answers 404 (`GetUser`, `UpdateUser`, `DeleteUser`, `GetContactForm`, `DeleteContactForm`). Likewise the sequence stops issuing ids after 2147483647, so an INSERT would then fail with 500, while `Table.Insert` always succeeds.
- SQL text is not modelled. The UPDATE statement is modelled as its SET clauses and bound values; the other statements are modelled by their effect on the table.
- bcrypt is the `hash` parameter: salt, cost factor and its asynchrony are not modelled. `User.comparePassword` (src/models/User.js:101-103) only delegates to `bcrypt.compare`, which is not part of this model.
- The mail transport (`../config/mailer`) is not part of this model. It is the `transport` parameter.
- Console logging is not modelled.
- `new Date().toLocaleString()` is the `submittedOn` parameter.
- Concurrency is not modelled; each handler runs to completion alone. A signup racing another with the same email would reach the UNIQUE constraint. That route is modelled in `UserController.Register`, but a sequential caller of `UserController.SignUp` never takes it on a valid table.
- Database failures other than the UNIQUE violation are not modelled: lost connections, and VARCHAR lengths exceeded (100/255/20/50 characters). The model accepts strings of any length.
- Request fields are modelled as absent or string (`agreeToTerms` as absent or boolean). Non-string JSON values in those fields are not modelled.
- JSON object key order is not modelled (`Json.Obj` is a map), and neither is the serialisation of timestamps as ISO strings: timestamps are clock ticks.
- Each table has its own clock. Equal `createdAt` values, possible in PostgreSQL within one transaction, do not arise in the model, so the order of ties is not modelled.
- Table.Delete: assumes the driver always reports a rowCount. The unset case is covered separately by `Table.RowCountDeleted`.
- EmailService.BreakLines, EmailService.AdminHtml and EmailService.ClientHtml are given as the exact template text without a separate contract. The properties of their variable parts are stated on `SubjectParagraph` and `ServiceTypeText`, and in the `BreakLines` lemmas.
- HTML escaping is absent in the source, and the model does not add it.

## Findings

| source | as written | input that shows it | evidently intended | confidence | as-written member | corrected member |
|---|---|---|---|---|---|---|
| src/controllers/userController.js:123-126 | The 200 response of `updateUser` sends the row from `RETURNING *` as `user`, password digest included | PUT /api/users/1 with body `{"firstName":"A"}` when user 1 exists: the body's `user.password` is the stored bcrypt digest | Strip the password as `getUser` and `getAllUsers` do (lines 87-90 and 100-104), so no response carries the digest | not executed | UserController.UpdateUserAsWritten (shown by UserController.UpdateUserAsWrittenLeaksDigest) | UserController.UpdateUser |

=== FILE: ContactController.dfy ===
/**
 The contact-form request handlers: submission with its required-field check
 and best-effort notifications, the listing, lookup by id and delete.
 */
module ContactController {
  import opened Js
  import opened Table
  import opened Http
  import opened EmailService
  import opened ContactModel

  /** The submission request body. */
  datatype ContactFormInput = ContactFormInput(
    firstName: Option<string>,
    lastName: Option<string>,
    email: Option<string>,
    phone: Option<string>,
    message: Option<string>,
    subject: Option<string>,
    serviceType: Option<string>
  )

  const RequiredMissing: string := "All required fields must be provided"
  const ThankYou: string :=
    "Thank you for contacting us. We have received your message and will get back to you soon!"
  const FormNotFound: string := "Contact form not found"
  const FormDeleted: string := "Contact form deleted successfully"

  /** Every required field is truthy; subject and serviceType are optional. */
  predicate HasRequired(input: ContactFormInput)
  {
    && Truthy(input.firstName)
    && Truthy(input.lastName)
    && Truthy(input.email)
    && Truthy(input.phone)
    && Truthy(input.message)
  }

  /** A stored submission serialised with all its columns; a null subject is JSON null. */
  function FormRecord(row: ContactRow): map<string, Json>
  {
    map[
      "id" := Num(row.id),
      "firstName" := Str(row.data.firstName),
      "lastName" := Str(row.data.lastName),
      "email" := Str(row.data.email),
      "phone" := Str(row.data.phone),
      "message" := Str(row.data.message),
      "subject" := (if row.data.subject.Some? then Str(row.data.subject.value) else Null),
      "serviceType" := Str(row.data.serviceType),
      "createdAt" := Num(row.createdAt),
      "updatedAt" := Num(row.updatedAt)
    ]
  }

  /** The stored row, as the admin notification receives it. */
  function FormNotice(row: ContactRow): NoticeData
  {
    NoticeData(row.data.firstName, row.data.lastName, row.data.email, row.data.phone,
               row.data.subject, row.data.message, Some(row.data.serviceType))
  }

  /** The two notifications a submission triggers, in order: the admin
      notification about the stored row, then the acknowledgement to the
      submitter, greeted by first name or, failing that, by email. */
  function NotifySubmission(env: Env, row: ContactRow, submittedOn: string, transport: Mail -> Delivery): (mails: seq<Sent>)
    ensures |mails| == 2
    ensures mails[0].mail.from == Sender(env) && mails[1].mail.from == Sender(env)
    ensures mails[0].mail.to == AdminRecipient(env) && mails[0].mail.subject == AdminSubject(FormNotice(row))
    ensures mails[0].mail.html == AdminHtml(FormNotice(row), submittedOn)
    ensures mails[1].mail.to == row.data.email && mails[1].mail.subject == ClientSubject
    ensures mails[1].mail.html == ClientHtml(if row.data.firstName != "" then row.data.firstName else row.data.email)
    ensures mails[0].delivery == transport(mails[0].mail) && mails[1].delivery == transport(mails[1].mail)
  {
    var admin := SendContactFormToAdmin(env, FormNotice(row), submittedOn, transport);
    var client := SendResponseToClient(env, row.data.email, ClientName(row.data.firstName, row.data.email), transport);
    [admin, client]
  }

  /** `submitContactForm`: 400 when a required field is falsy, and nothing is
      stored; otherwise a new row is always stored (no duplicate check), both
      notifications are attempted whatever becomes of them, and 201 returns the
      stored row. */
  function SubmitContactForm(t: Contacts, input: ContactFormInput, env: Env, submittedOn: string,
                             transport: Mail -> Delivery): (r: Outcome<ContactData>)
    ensures r.response.status == 400 <==> !HasRequired(input)
    ensures r.response.status == 400 ==> r.response.body == Message(RequiredMissing) && r.table == t && r.mails == []
    ensures r.response.status != 400 ==> r.response.status == 201
    ensures r.response.status == 201 ==>
              && t.nextId in r.table.rows
              && var row := r.table.rows[t.nextId];
              && r.table.rows == t.rows[t.nextId := row]
              && row.data.firstName == input.firstName.value
              && row.data.lastName == input.lastName.value
              && row.data.email == input.email.value
              && row.data.phone == input.phone.value
              && row.data.message == input.message.value
              && (row.data.subject.None? <==> !Truthy(input.subject))
              && (Truthy(input.subject) ==> row.data.subject == input.subject)
              && row.data.serviceType == Or(input.serviceType, DefaultServiceType)
              && r.response.body == Obj(map["message" := Str(ThankYou), "data" := Obj(FormRecord(row))])
              && |r.mails| == 2
              && r.mails[0].mail.to == AdminRecipient(env)
              && r.mails[1].mail.to == input.email.value
              && r.mails[1].mail.html == ClientHtml(input.firstName.value)
              && r.mails == NotifySubmission(env, row, submittedOn, transport)
    ensures Valid(t) && r.response.status == 201 ==> t.nextId !in t.rows && |r.table.rows| == |t.rows| + 1
    ensures Invariant(t) ==> Invariant(r.table)
  {
    if !HasRequired(input) then Reply(t, 400, RequiredMissing)
    else
      var ins := Create(t, NewContact(input.firstName.value, input.lastName.value, input.email.value,
                                      input.phone.value, input.message.value, input.subject, input.serviceType));
      Outcome(Response(201, Obj(map["message" := Str(ThankYou), "data" := Obj(FormRecord(ins.row))])),
              ins.table, NotifySubmission(env, ins.row, submittedOn, transport))
  }

  /** Notification failures are swallowed: the response and the table do not
      depend on what the transport reports. */
  lemma SubmitIgnoresDelivery(t: Contacts, input: ContactFormInput, env: Env, submittedOn: string,
                              tr1: Mail -> Delivery, tr2: Mail -> Delivery)
    ensures SubmitContactForm(t, input, env, submittedOn, tr1).response == SubmitContactForm(t, input, env, submittedOn, tr2).response
    ensures SubmitContactForm(t, input, env, submittedOn, tr1).table == SubmitContactForm(t, input, env, submittedOn, tr2).table
  {
  }

  /** A submission with every required field but neither subject nor service type. */
  const BareSubmission: ContactFormInput :=
    ContactFormInput(Some("A"), Some("B"), Some("a@b.com"), Some("123"), Some("hi"), None, Some(""))

  /** Such a submission is accepted and stored with a null subject and the
      service type 'Other'. */
  lemma SubmitDefaultsExample(t: Contacts, env: Env, submittedOn: string, transport: Mail -> Delivery)
    ensures var r := SubmitContactForm(t, BareSubmission, env, submittedOn, transport);
            && r.response.status == 201
            && t.nextId in r.table.rows
            && r.table.rows[t.nextId].data.subject == None
            && r.table.rows[t.nextId].data.serviceType == DefaultServiceType
  {
  }

  /** `getContactForms`: every stored form, serialised in listing order. */
  function GetContactForms(t: Contacts): (r: Response)
    ensures r.status == 200 && r.body.Arr?
    ensures |r.body.items| == |FindAll(t)|
    ensures forall i :: 0 <= i < |r.body.items| ==> r.body.items[i] == Obj(FormRecord(FindAll(t)[i]))
  {
    var forms := FindAll(t);
    Response(200, Arr(seq(|forms|, i requires 0 <= i < |forms| => Obj(FormRecord(forms[i])))))
  }

  /** A serialised form carries its creation time. */
  lemma FormCreatedAt(row: ContactRow)
    ensures "createdAt" in FormRecord(row) && FormRecord(row)["createdAt"] == Num(row.createdAt)
  {
  }

  /** On a valid table the listing is newest first. */
  lemma {:induction false} GetContactFormsNewestFirst(t: Contacts)
    requires Valid(t)
    ensures var items := GetContactForms(t).body.items;
            forall i, j :: 0 <= i < j < |items| ==>
              && "createdAt" in items[i].fields && "createdAt" in items[j].fields
              && items[i].fields["createdAt"].n > items[j].fields["createdAt"].n
  {
    var rows := FindAll(t);
    var items := GetContactForms(t).body.items;
    assert forall i, j :: 0 <= i < j < |rows| ==> rows[i].createdAt > rows[j].createdAt by {
      FindAllNewestFirst(t);
    }
    forall i, j | 0 <= i < j < |items|
      ensures && "createdAt" in items[i].fields && "createdAt" in items[j].fields
              && items[i].fields["createdAt"].n > items[j].fields["createdAt"].n
    {
      assert items[i] == Obj(FormRecord(rows[i]));
      assert items[j] == Obj(FormRecord(rows[j]));
      FormCreatedAt(rows[i]);
      FormCreatedAt(rows[j]);
    }
  }

  /** On a valid table every stored form is listed. */
  lemma {:induction false} GetContactFormsComplete(t: Contacts)
    requires Valid(t)
    ensures var items := GetContactForms(t).body.items;
            forall k :: k in t.rows ==> exists i :: 0 <= i < |items| && items[i] == Obj(FormRecord(t.rows[k]))
  {
    var rows := FindAll(t);
    var items := GetContactForms(t).body.items;
    assert forall k :: k in t.rows ==> exists i :: 0 <= i < |rows| && rows[i] == t.rows[k] by {
      FindAllNewestFirst(t);
    }
    forall k | k in t.rows
      ensures exists i :: 0 <= i < |items| && items[i] == Obj(FormRecord(t.rows[k]))
    {
      var i :| 0 <= i < |rows| && rows[i] == t.rows[k];
      assert items[i] == Obj(FormRecord(t.rows[k]));
    }
  }

  /** `getContactForm`: 404 exactly when no row has the id. */
  function GetContactForm(t: Contacts, id: nat): (r: Response)
    ensures r.status == 200 <==> id in t.rows
    ensures r.status != 200 ==> r == Response(404, Message(FormNotFound))
    ensures r.status == 200 ==> r.body == Obj(FormRecord(t.rows[id]))
  {
    match FindById(t, id)
    case None => Response(404, Message(FormNotFound))
    case Some(form) => Response(200, Obj(FormRecord(form)))
  }

  /** `deleteContactForm`: 404 exactly when nothing was deleted; after a 200 the
      form is gone and every other form is kept. */
  function DeleteContactForm(t: Contacts, id: nat): (r: Outcome<ContactData>)
    ensures r.response.status == 404 <==> id !in t.rows
    ensures r.response.status == 404 || r.response.status == 200
    ensures r.response.status == 404 ==> r.table == t && r.response.body == Message(FormNotFound)
    ensures r.response.status == 200 ==> r.response.body == Message(FormDeleted)
    ensures r.response.status == 200 ==> GetContactForm(r.table, id).status == 404
    ensures forall k :: k in t.rows && k != id ==> k in r.table.rows && r.table.rows[k] == t.rows[k]
    ensures r.response.status == 200 ==> r.table == t.(rows := t.rows - {id})
    ensures r.mails == []
    ensures Invariant(t) ==> Invariant(r.table)
  {
    var removed := ContactModel.Delete(t, id);
    if !removed.deleted then Reply(t, 404, FormNotFound)
    else Outcome(Response(200, Message(FormDeleted)), removed.table, [])
  }
}

=== FILE: ContactModel.dfy ===
/**
 The contact-form repository over the `contact_forms` table: create (with the
 null subject and 'Other' service-type defaults), lookup by id, the newest-first
 listing and delete. Unlike `users`, nothing here is unique but the id.
 */
module ContactModel {
  import opened Js
  import opened Table

  /** The columns of `contact_forms` besides the generated ones. */
  datatype ContactData = ContactData(
    firstName: string,
    lastName: string,
    email: string,
    phone: string,
    message: string,
    subject: Option<string>,
    serviceType: string
  )

  type ContactRow = Row<ContactData>
  type Contacts = Table<ContactData>

  /** What `create` receives: the optional fields may be absent or empty. */
  datatype NewContact = NewContact(
    firstName: string,
    lastName: string,
    email: string,
    phone: string,
    message: string,
    subject: Option<string>,
    serviceType: Option<string>
  )

  const DefaultServiceType: string := "Other"

  /** What `create` guarantees of every stored row: a stored subject is never
      empty, and the service type is always set. */
  ghost predicate Normalised(t: Contacts)
  {
    forall k :: k in t.rows ==>
      && (t.rows[k].data.subject.Some? ==> t.rows[k].data.subject.value != "")
      && t.rows[k].data.serviceType != ""
  }

  /** Everything the `contact_forms` table guarantees. */
  ghost predicate Invariant(t: Contacts)
  {
    Valid(t) && Normalised(t)
  }

  /** `ContactForm.create`: `subject || null` and `serviceType || 'Other'`, then
      an INSERT that always succeeds and adds exactly one new row. */
  function Create(t: Contacts, c: NewContact): (r: Inserted<ContactData>)
    ensures r.row.data.subject.None? <==> !Truthy(c.subject)
    ensures r.row.data.subject.Some? ==> r.row.data.subject == c.subject
    ensures Truthy(c.serviceType) ==> r.row.data.serviceType == c.serviceType.value
    ensures !Truthy(c.serviceType) ==> r.row.data.serviceType == DefaultServiceType
    ensures && r.row.data.firstName == c.firstName
            && r.row.data.lastName == c.lastName
            && r.row.data.email == c.email
            && r.row.data.phone == c.phone
            && r.row.data.message == c.message
    ensures r.row.id == t.nextId && r.table.rows == t.rows[t.nextId := r.row]
    ensures Valid(t) ==> r.row.id !in t.rows
    ensures Invariant(t) ==> Invariant(r.table)
  {
    var ins := Insert(t, ContactData(c.firstName, c.lastName, c.email, c.phone, c.message,
                                     OrNull(c.subject), Or(c.serviceType, DefaultServiceType)));
    ins
  }

  /** Submitting the same form twice stores two distinct rows, both kept. */
  lemma {:induction false} RepeatSubmissionsKept(t: Contacts, c: NewContact)
    requires Valid(t)
    ensures var first := Create(t, c);
            var second := Create(first.table, c);
            && first.row.id != second.row.id
            && first.row.id in second.table.rows
            && second.row.id in second.table.rows
            && |second.table.rows| == |t.rows| + 2
  {
    var first := Create(t, c);
    var second := Create(first.table, c);
    assert first.table.rows.Keys == t.rows.Keys + {first.row.id};
    assert second.table.rows.Keys == first.table.rows.Keys + {second.row.id};
  }

  /** `ContactForm.findById`. */
  function FindById(t: Contacts, id: nat): (r: Option<ContactRow>)
    ensures r.None? <==> id !in t.rows
    ensures r.Some? ==> r.value == t.rows[id]
    ensures Valid(t) && r.Some? ==> r.value.id == id
  {
    Find(t, id)
  }

  /** `ContactForm.delete`: true exactly when the row existed; afterwards no row
      has the id and the other rows are unchanged. */
  function Delete(t: Contacts, id: nat): (r: Removal<ContactData>)
    ensures r.deleted <==> id in t.rows
    ensures FindById(r.table, id).None?
    ensures forall k :: k in t.rows && k != id ==> k in r.table.rows && r.table.rows[k] == t.rows[k]
    ensures r.table == t.(rows := t.rows - {id})
    ensures Invariant(t) ==> Invariant(r.table)
  {
    Remove(t, id)
  }
}

=== FILE: EmailService.dfy ===
/**
 The email service: the sender and recipient fallbacks, the two HTML templates
 (admin notification and client acknowledgement) and the hand-off of a finished
 mail to the transport. The transport itself is a parameter; its answer is
 passed back to the caller unchanged.
 */
module EmailService {
  import opened Js

  /** The options `sendEmail` is called with. */
  datatype MailOptions = MailOptions(to: string, subject: string, html: string)

  /** The message handed to the transport. */
  datatype Mail = Mail(from: string, to: string, subject: string, html: string)

  /** What the transport reports: a receipt, or the error it threw. */
  datatype Delivery = Delivered(receipt: string) | Failed(error: string)

  /** One attempted delivery: the mail and what became of it. */
  datatype Sent = Sent(mail: Mail, delivery: Delivery)

  /** The fields of a contact submission (or of a new user) the admin mail shows.
      `subject` and `serviceType` may be null. */
  datatype NoticeData = NoticeData(
    firstName: string,
    lastName: string,
    email: string,
    phone: string,
    subject: Option<string>,
    message: string,
    serviceType: Option<string>
  )

  const DefaultSender: string := "noreply@mangoadmi.in"
  const DefaultAdmin: string := "admin@mangoadmi.in"
  const AdminSubjectPrefix: string := "New Contact Form: "
  const ClientSubject: string := "We Received Your Message - Mango Admi"
  const SubjectOpen: string := "<p><strong>Subject:</strong> "
  const NoServiceType: string := "Not specified"
  const LineBreak: string := "<br>"

  /** FROM_EMAIL, else the fixed no-reply address. */
  function Sender(env: Env): (from: string)
    ensures Truthy(env.fromEmail) ==> from == env.fromEmail.value
    ensures !Truthy(env.fromEmail) ==> from == DefaultSender
    ensures from != ""
  {
    Or(env.fromEmail, DefaultSender)
  }

  /** `sendEmail`: stamps the sender and hands the mail to the transport. Whatever
      the transport reports, a failure included, is returned to the caller. */
  function SendEmail(env: Env, options: MailOptions, transport: Mail -> Delivery): (r: Sent)
    ensures r.mail.from == Sender(env)
    ensures r.mail.to == options.to && r.mail.subject == options.subject && r.mail.html == options.html
    ensures transport(r.mail).Failed? ==> r.delivery == Failed(transport(r.mail).error)
    ensures transport(r.mail).Delivered? ==> r.delivery == transport(r.mail)
  {
    var mail := Mail(Sender(env), options.to, options.subject, options.html);
    Sent(mail, transport(mail))
  }

  /** ADMIN_EMAIL, else OWNER_EMAIL, else the fixed admin address. */
  function AdminRecipient(env: Env): (to: string)
    ensures Truthy(env.adminEmail) ==> to == env.adminEmail.value
    ensures !Truthy(env.adminEmail) && Truthy(env.ownerEmail) ==> to == env.ownerEmail.value
    ensures !Truthy(env.adminEmail) && !Truthy(env.ownerEmail) ==> to == DefaultAdmin
    ensures to != ""
  {
    var adminEmail := if Truthy(env.adminEmail) then env.adminEmail else env.ownerEmail;
    Or(adminEmail, DefaultAdmin)
  }

  /** The admin mail's subject line: the submission's subject when it has one,
      otherwise the first name, followed by the last name. */
  function AdminSubject(d: NoticeData): (subject: string)
    ensures Truthy(d.subject) ==> subject == AdminSubjectPrefix + d.subject.value + " " + d.lastName
    ensures !Truthy(d.subject) ==> subject == AdminSubjectPrefix + d.firstName + " " + d.lastName
  {
    AdminSubjectPrefix + Or(d.subject, d.firstName) + " " + d.lastName
  }

  /** The text of the Service Type line. */
  function ServiceTypeText(serviceType: Option<string>): (text: string)
    ensures Truthy(serviceType) ==> text == serviceType.value
    ensures !Truthy(serviceType) ==> text == NoServiceType
    ensures text != ""
  {
    Or(serviceType, NoServiceType)
  }

  /** The Subject paragraph: present, and quoting the subject, exactly when the
      subject is truthy; otherwise the empty string. */
  function SubjectParagraph(subject: Option<string>): (p: string)
    ensures p != "" <==> Truthy(subject)
    ensures Truthy(subject) ==> p == SubjectOpen + subject.value + "</p>"
  {
    if Truthy(subject) then SubjectOpen + subject.value + "</p>" else ""
  }

  /** The number of newline characters in `s`. */
  function Newlines(s: string): nat
  {
    if s == [] then 0 else (if s[0] == '\n' then 1 else 0) + Newlines(s[1..])
  }

  /** What one character becomes under the replacement. */
  function BreakChar(c: char): string
  {
    if c == '\n' then LineBreak else [c]
  }

  /** `s.replace(/\n/g, "<br>")`. */
  function BreakLines(s: string): string
  {
    if s == [] then [] else BreakChar(s[0]) + BreakLines(s[1..])
  }

  /** No newline survives the replacement. */
  lemma {:induction false} BreakLinesRemovesNewlines(s: string)
    ensures '\n' !in BreakLines(s)
  {
    if s != [] {
      BreakLinesRemovesNewlines(s[1..]);
      assert '\n' !in BreakChar(s[0]);
    }
  }

  /** Text without newlines passes through unchanged. */
  lemma {:induction false} BreakLinesKeepsPlainText(s: string)
    requires '\n' !in s
    ensures BreakLines(s) == s
  {
    if s != [] {
      assert forall c :: c in s[1..] ==> c in s;
      BreakLinesKeepsPlainText(s[1..]);
      assert s == [s[0]] + s[1..];
    }
  }

  /** Each newline grows the text by three characters ("<br>" for "\n"). */
  lemma {:induction false} BreakLinesLength(s: string)
    ensures |BreakLines(s)| == |s| + 3 * Newlines(s)
  {
    if s != [] {
      BreakLinesLength(s[1..]);
    }
  }

  /** One step of the replacement: the first character, then the rest. */
  lemma BreakLinesCons(c: char, s: string)
    ensures BreakLines([c] + s) == BreakChar(c) + BreakLines(s)
  {
    assert ([c] + s)[0] == c;
    assert ([c] + s)[1..] == s;
  }

  /** The replacement works character by character, so it distributes over concatenation. */
  lemma {:induction false} BreakLinesConcat(a: string, b: string)
    ensures BreakLines(a + b) == BreakLines(a) + BreakLines(b)
  {
    if a == [] {
      assert a + b == b;
    } else {
      var c, rest := a[0], a[1..];
      calc {
        BreakLines(a + b);
        { assert a + b == [c] + (rest + b); }
        BreakLines([c] + (rest + b));
        { BreakLinesCons(c, rest + b); }
        BreakChar(c) + BreakLines(rest + b);
        { BreakLinesConcat(rest, b); }
        BreakChar(c) + (BreakLines(rest) + BreakLines(b));
        (BreakChar(c) + BreakLines(rest)) + BreakLines(b);
        { assert a == [c] + rest; BreakLinesCons(c, rest); }
        BreakLines(a) + BreakLines(b);
      }
    }
  }

  /** Replacing a second time changes nothing. */
  lemma {:induction false} BreakLinesIdempotent(s: string)
    ensures BreakLines(BreakLines(s)) == BreakLines(s)
  {
    BreakLinesRemovesNewlines(s);
    BreakLinesKeepsPlainText(BreakLines(s));
  }

  /** The admin notification's fixed text, in the pieces between its variable parts. */
  const AdminHtmlName: string := "\n    <h2>New Contact Form Submission</h2>\n    <p><strong>Name:</strong> "
  const AdminHtmlEmail: string := "</p>\n    <p><strong>Email:</strong> "
  const AdminHtmlPhone: string := "</p>\n    <p><strong>Phone:</strong> "
  const AdminHtmlService: string := "</p>\n    <p><strong>Service Type:</strong> "
  const AdminHtmlSubject: string := "</p>\n    "
  const AdminHtmlMessage: string := "\n    <p><strong>Message:</strong></p>\n    <p>"
  const AdminHtmlSubmitted: string := "</p>\n    <hr>\n    <p><em>Submitted on: "
  const AdminHtmlEnd: string := "</em></p>\n  "

  /** The admin notification's HTML body. `submittedOn` stands for the
      locale-formatted current time. */
  function AdminHtml(d: NoticeData, submittedOn: string): string
  {
    AdminHtmlName + d.firstName + " " + d.lastName
    + AdminHtmlEmail + d.email
    + AdminHtmlPhone + d.phone
    + AdminHtmlService + ServiceTypeText(d.serviceType)
    + AdminHtmlSubject + SubjectParagraph(d.subject)
    + AdminHtmlMessage + BreakLines(d.message)
    + AdminHtmlSubmitted + submittedOn
    + AdminHtmlEnd
  }

  /** `sendContactFormToAdmin`. */
  function SendContactFormToAdmin(env: Env, d: NoticeData, submittedOn: string, transport: Mail -> Delivery): (r: Sent)
    ensures r.mail.from == Sender(env)
    ensures r.mail.to == AdminRecipient(env)
    ensures r.mail.subject == AdminSubject(d)
    ensures r.mail.html == AdminHtml(d, submittedOn)
    ensures r.delivery == transport(r.mail)
  {
    SendEmail(env, MailOptions(AdminRecipient(env), AdminSubject(d), AdminHtml(d, submittedOn)), transport)
  }

  /** The acknowledgement's fixed text before the client's name. */
  const ClientHtmlHead: string :=
    "\n    <h2>Thank You for Contacting Mango Admi!</h2>"
    + "\n    <p>Hi "

  /** The acknowledgement's fixed text after the client's name. */
  const ClientHtmlTail: string :=
    ",</p>"
    + "\n    <p>Thank you for reaching out to us. We have received your message and appreciate your interest in our services.</p>"
    + "\n    <p>Our team will review your request and get back to you as soon as possible. We typically respond within 24-48 hours.</p>"
    + "\n    <p>If you have any urgent inquiries, please feel free to call us directly.</p>"
    + "\n    <br>"
    + "\n    <p>Best regards,<br>"
    + "\n    <strong>Mango Admi Team</strong><br>"
    + "\n    Achieve Your Goals</p>"
    + "\n  "

  /** The acknowledgement's HTML body, greeting the client by `clientName`. */
  function ClientHtml(clientName: string): string
  {
    ClientHtmlHead + clientName + ClientHtmlTail
  }

  /** `sendResponseToClient`: the fixed acknowledgement, sent to the client's own address. */
  function SendResponseToClient(env: Env, clientEmail: string, clientName: string, transport: Mail -> Delivery): (r: Sent)
    ensures r.mail.from == Sender(env)
    ensures r.mail.to == clientEmail
    ensures r.mail.subject == ClientSubject
    ensures r.mail.html == ClientHtml(clientName)
    ensures r.delivery == transport(r.mail)
  {
    SendEmail(env, MailOptions(clientEmail, ClientSubject, ClientHtml(clientName)), transport)
  }

  /** The name the acknowledgement greets: `firstName || email`. */
  function ClientName(firstName: string, email: string): (name: string)
    ensures firstName != "" ==> name == firstName
    ensures firstName == "" ==> name == email
  {
    Or(Some(firstName), email)
  }
}

=== FILE: Http.dfy ===
/**
 What a handler sends back: a status and a JSON body, and, for the handlers
 that write, the table afterwards and the notification mails they attempted.
 */
module Http {
  import opened Js
  import opened Table
  import opened EmailService

  /** A JSON value as Express serialises it. Object key order is not modelled. */
  datatype Json =
    | Null
    | Bool(b: bool)
    | Num(n: int)
    | Str(s: string)
    | Arr(items: seq<Json>)
    | Obj(fields: map<string, Json>)

  datatype Response = Response(status: int, body: Json)

  /** The `{ message: text }` body every error and confirmation uses. */
  function Message(text: string): Json
  {
    Obj(map["message" := Str(text)])
  }

  /** The text of a `{ message: text }` body, if the body is one. */
  function MessageOf(body: Json): Option<string>
  {
    if body.Obj? && "message" in body.fields && body.fields["message"].Str?
    then Some(body.fields["message"].s) else None
  }

  /** A handler's full effect: the response, the table it leaves behind and the
      mails it handed to the transport, in order. */
  datatype Outcome<D> = Outcome(response: Response, table: Table<D>, mails: seq<Sent>)

  /** A response that writes nothing and sends no mail. */
  function Reply<D>(t: Table<D>, status: int, text: string): Outcome<D>
  {
    Outcome(Response(status, Message(text)), t, [])
  }
}

=== FILE: Js.dfy ===
/**
 The JavaScript values the service works with: optional request fields, the
 truthiness tests and `||` fallbacks applied to them, the process environment,
 and the error object that travels to the central error handler.
 */
module Js {

  /** A value that may be `undefined` or `null` (None) or present (Some). */
  datatype Option<+T> = None | Some(value: T) {

    /** The present value, or `default` when absent. */
    function GetOr(default: T): T
    {
      match this
      case Some(v) => v
      case None => default
    }
  }

  /** The outcome of a call that can throw: a value, or the error it threw. */
  datatype Result<+T, +E> = Ok(value: T) | Err(error: E)

  /** JavaScript truthiness of an optional string: only a present, non-empty string is truthy. */
  predicate Truthy(s: Option<string>)
  {
    s.Some? && s.value != ""
  }

  /** JavaScript truthiness of an optional boolean. */
  predicate TruthyBool(b: Option<bool>)
  {
    b == Some(true)
  }

  /** `s || fallback` where `s` is an optional string. */
  function Or(s: Option<string>, fallback: string): string
  {
    if Truthy(s) then s.value else fallback
  }

  /** `s || null`: a falsy string collapses to null, a truthy one is kept. */
  function OrNull(s: Option<string>): Option<string>
  {
    if Truthy(s) then s else None
  }

  /** The variables read from `process.env` by the modelled code. */
  datatype Env = Env(
    adminEmail: Option<string>,   // ADMIN_EMAIL
    ownerEmail: Option<string>,   // OWNER_EMAIL
    fromEmail: Option<string>,    // FROM_EMAIL
    frontendUrl: Option<string>   // FRONTEND_URL
  )

  /** An error object as it reaches the error-handling middleware: a Postgres
      SQLSTATE `code`, an HTTP `status` and a `message`, each possibly unset.
      A status of 0 is falsy in JavaScript, like an unset one. */
  datatype AppError = AppError(code: Option<string>, status: Option<int>, message: Option<string>)

  /** SQLSTATE of a unique-constraint violation. */
  const UniqueViolation: string := "23505"

  /** SQLSTATE of a not-null violation. */
  const NotNullViolation: string := "23502"
}

=== FILE: Server.dfy ===
/**
 The two pieces of the application entry point that decide something: the
 error-handling middleware every handler's `next(error)` reaches, and the CORS
 origin callback with its list of allowed origins.
 */
module Server {
  import opened Js
  import opened Http

  /** The error-handling middleware. Postgres constraint codes take precedence
      over the error's own status; otherwise the error's status and message are
      used when truthy, with 500 and a generic message as fallbacks. */
  function HandleError(err: AppError): (r: Response)
    ensures err.code == Some(UniqueViolation) ==> r == Response(409, Message("Duplicate entry"))
    ensures err.code == Some(NotNullViolation) ==> r == Response(400, Message("Missing required field"))
    ensures err.code != Some(UniqueViolation) && err.code != Some(NotNullViolation) ==>
              && r.status == (if err.status.Some? && err.status.value != 0 then err.status.value else 500)
              && MessageOf(r.body) == Some(Or(err.message, "Internal server error"))
    ensures MessageOf(r.body).Some? && MessageOf(r.body).value != ""
  {
    if err.code == Some(UniqueViolation) then
      Response(409, Message("Duplicate entry"))
    else if err.code == Some(NotNullViolation) then
      Response(400, Message("Missing required field"))
    else
      var status := if err.status.Some? && err.status.value != 0 then err.status.value else 500;
      Response(status, Message(Or(err.message, "Internal server error")))
  }

  /** The three origins that are always allowed. */
  const FixedOrigins: seq<string> := ["http://localhost:8080", "http://localhost:8081", "https://mango-admi.vercel.app"]

  /** The allowed-origins list: `[...fixed, FRONTEND_URL].filter(Boolean)`. The
      fixed origins are non-empty, so the filter only drops an unset or empty
      FRONTEND_URL. */
  function AllowedOrigins(env: Env): (r: seq<string>)
    ensures forall o :: o in r <==> o in FixedOrigins || (Truthy(env.frontendUrl) && o == env.frontendUrl.value)
    ensures forall i :: 0 <= i < |r| ==> r[i] != ""
    ensures |r| == if Truthy(env.frontendUrl) then 4 else 3
    ensures r[..3] == FixedOrigins
  {
    FixedOrigins + (if Truthy(env.frontendUrl) then [env.frontendUrl.value] else [])
  }

  /** The CORS callback's answer: allow, or fail with an error. */
  datatype CorsVerdict = Allow | Reject(message: string)

  /** The origin callback: a request without an origin is allowed; otherwise
      the origin must be on the allowed list. */
  function CheckOrigin(env: Env, origin: Option<string>): (v: CorsVerdict)
    ensures v.Allow? <==> !Truthy(origin) || origin.value in AllowedOrigins(env)
    ensures v.Reject? ==> v.message == "Not allowed by CORS"
  {
    if !Truthy(origin) then Allow
    else if origin.value in AllowedOrigins(env) then Allow
    else Reject("Not allowed by CORS")
  }

  /** A rejected origin reaches the error middleware as a plain Error carrying
      the rejection message and no status, so the request is answered 500 with
      that message. */
  lemma CorsRejectionAnswer(env: Env, origin: Option<string>)
    requires CheckOrigin(env, origin).Reject?
    ensures HandleError(AppError(None, None, Some(CheckOrigin(env, origin).message)))
            == Response(500, Message("Not allowed by CORS"))
  {
  }

  /** The allowed set spelled out: a present origin passes exactly when it is one
      of the fixed three or equals a set FRONTEND_URL. */
  lemma CheckOriginAllows(env: Env, origin: string)
    requires origin != ""
    ensures CheckOrigin(env, Some(origin)).Allow? <==>
              || origin == "http://localhost:8080"
              || origin == "http://localhost:8081"
              || origin == "https://mango-admi.vercel.app"
              || (Truthy(env.frontendUrl) && origin == env.frontendUrl.value)
  {
  }
}

=== FILE: Table.dfy ===
/**
 An abstract relational table: rows keyed by their SERIAL id, each row carrying
 its `createdAt`/`updatedAt` timestamps. Ids and timestamps are issued from two
 counters, so a table is a map plus the next id and the current clock.
 */
module Table {
  import opened Js

  /** One stored row: the generated columns around the entity's own columns. */
  datatype Row<D> = Row(id: nat, data: D, createdAt: nat, updatedAt: nat)

  datatype Table<D> = Table(rows: map<nat, Row<D>>, nextId: nat, clock: nat)

  /** The result of an INSERT ... RETURNING *. */
  datatype Inserted<D> = Inserted(table: Table<D>, row: Row<D>)

  /** An INSERT the database refused: the table afterwards and the error raised. */
  datatype Refused<D> = Refused(table: Table<D>, error: AppError)

  /** The result of a DELETE: the table afterwards and the driver's rowCount. */
  datatype Deleted<D> = Deleted(table: Table<D>, rowCount: Option<nat>)

  /** A freshly created table: SERIAL starts at 1. */
  function Empty<D>(): Table<D>
  {
    Table(map[], 1, 0)
  }

  /** What the CREATE TABLE statements and the counters guarantee of every table:
      each row sits under its own id, ids were issued below `nextId`, timestamps
      were issued before `clock` and a row is never updated before it is created,
      and a larger id was created strictly later. */
  ghost predicate Valid<D>(t: Table<D>)
  {
    && (forall k :: k in t.rows ==>
          && t.rows[k].id == k
          && k < t.nextId
          && t.rows[k].createdAt <= t.rows[k].updatedAt < t.clock)
    && (forall j, k :: j in t.rows && k in t.rows && j < k ==>
          t.rows[j].createdAt < t.rows[k].createdAt)
  }

  lemma EmptyIsValid<D>()
    ensures Valid(Empty<D>())
    ensures Empty<D>().rows == map[]
  {
  }

  /** INSERT: the new row takes the next id and the current time. */
  function Insert<D>(t: Table<D>, d: D): (r: Inserted<D>)
    ensures r.row.data == d
    ensures r.row.id == t.nextId && r.table.rows == t.rows[r.row.id := r.row]
    ensures r.row.createdAt == r.row.updatedAt
    ensures Valid(t) ==> r.row.id !in t.rows
    ensures Valid(t) ==> r.table.rows.Keys == t.rows.Keys + {r.row.id}
    ensures Valid(t) ==> forall k :: k in t.rows ==> r.table.rows[k] == t.rows[k]
    ensures Valid(t) ==> forall k :: k in t.rows ==> t.rows[k].createdAt < r.row.createdAt
    ensures Valid(t) ==> Valid(r.table)
  {
    var row := Row(t.nextId, d, t.clock, t.clock);
    Inserted(Table(t.rows[t.nextId := row], t.nextId + 1, t.clock + 1), row)
  }

  /** An INSERT the database rejects after drawing its SERIAL id: `nextval` is
      not rolled back, so the id is used up and no row is added. */
  function ConsumeId<D>(t: Table<D>): (r: Table<D>)
    ensures r.rows == t.rows
    ensures r.nextId == t.nextId + 1
    ensures Valid(t) ==> Valid(r)
  {
    t.(nextId := t.nextId + 1)
  }

  /** SELECT * ... WHERE id = $1: the row, or null. */
  function Find<D>(t: Table<D>, id: nat): (r: Option<Row<D>>)
    ensures r.None? <==> id !in t.rows
    ensures r.Some? ==> r.value == t.rows[id]
  {
    if id in t.rows then Some(t.rows[id]) else None
  }

  /** UPDATE ... WHERE id = $n of an existing row: the row is replaced and the clock advances. */
  function Put<D>(t: Table<D>, id: nat, row: Row<D>): (r: Table<D>)
    requires id in t.rows
    ensures r.rows.Keys == t.rows.Keys
    ensures r.rows[id] == row
    ensures forall k :: k in t.rows && k != id ==> r.rows[k] == t.rows[k]
    ensures Valid(t) && row.id == id && row.createdAt == t.rows[id].createdAt && row.updatedAt == t.clock ==> Valid(r)
  {
    Table(t.rows[id := row], t.nextId, t.clock + 1)
  }

  /** DELETE ... WHERE id = $1: the primary key matches at most one row, and
      rowCount reports how many were removed. */
  function Delete<D>(t: Table<D>, id: nat): (r: Deleted<D>)
    ensures id !in r.table.rows
    ensures r.rowCount.Some?
    ensures |t.rows| == |r.table.rows| + r.rowCount.value
    ensures r.table.rows.Keys == t.rows.Keys - {id}
    ensures forall k :: k in r.table.rows ==> r.table.rows[k] == t.rows[k]
    ensures r.table == t.(rows := t.rows - {id})
    ensures Valid(t) ==> Valid(r.table)
  {
    var rows := t.rows - {id};
    assert rows.Keys == t.rows.Keys - {id};
    Deleted(Table(rows, t.nextId, t.clock), Some(if id in t.rows then 1 else 0))
  }

  /** `(result.rowCount ?? 0) > 0`: an unset rowCount counts as nothing deleted. */
  function RowCountDeleted(rowCount: Option<nat>): (deleted: bool)
    ensures deleted <==> rowCount.Some? && rowCount.value > 0
  {
    rowCount.GetOr(0) > 0
  }

  /** A repository's delete: true exactly when a row was removed. */
  datatype Removal<D> = Removal(table: Table<D>, deleted: bool)

  /** DELETE followed by `(rowCount ?? 0) > 0`: reports true exactly when the id
      was present, and afterwards the id is gone while every other row stays. */
  function Remove<D>(t: Table<D>, id: nat): (r: Removal<D>)
    ensures r.deleted <==> id in t.rows
    ensures Find(r.table, id).None?
    ensures r.table.rows.Keys == t.rows.Keys - {id}
    ensures forall k :: k in r.table.rows ==> r.table.rows[k] == t.rows[k]
    ensures r.table == t.(rows := t.rows - {id})
    ensures Valid(t) ==> Valid(r.table)
  {
    var d := Delete(t, id);
    Removal(d.table, RowCountDeleted(d.rowCount))
  }

  /** The ids below `n` that are present in `rows`, largest first (see IdsBelowDescending). */
  function IdsBelow<D>(rows: map<nat, Row<D>>, n: nat): (ids: seq<nat>)
    ensures forall i :: 0 <= i < |ids| ==> ids[i] in rows && ids[i] < n
    ensures forall k :: k in rows && k < n ==> k in ids
  {
    if n == 0 then []
    else
      var rest := IdsBelow(rows, n - 1);
      if n - 1 in rows then [n - 1] + rest else rest
  }

  /** Strictly decreasing. */
  ghost predicate Descending(ids: seq<nat>)
  {
    forall i, j :: 0 <= i < j < |ids| ==> ids[i] > ids[j]
  }

  /** Putting a larger id in front keeps a list strictly decreasing. */
  lemma PrependDescending(x: nat, rest: seq<nat>)
    requires Descending(rest)
    requires forall i :: 0 <= i < |rest| ==> rest[i] < x
    ensures Descending([x] + rest)
  {
    var ids := [x] + rest;
    forall i, j | 0 <= i < j < |ids| ensures ids[i] > ids[j] {
      assert ids[j] == rest[j - 1];
      if i > 0 { assert ids[i] == rest[i - 1]; }
    }
  }

  /** The ids are listed strictly decreasing. */
  lemma {:induction false} IdsBelowDescending<D>(rows: map<nat, Row<D>>, n: nat)
    ensures Descending(IdsBelow(rows, n))
  {
    if n > 0 {
      var rest := IdsBelow(rows, n - 1);
      IdsBelowDescending(rows, n - 1);
      if n - 1 in rows {
        PrependDescending(n - 1, rest);
        assert IdsBelow(rows, n) == [n - 1] + rest;
      } else {
        assert IdsBelow(rows, n) == rest;
      }
    }
  }

  /** SELECT * ... ORDER BY "createdAt" DESC. Rows are listed from the largest id
      down; on a valid table that is exactly newest-first (see FindAllNewestFirst). */
  function FindAll<D>(t: Table<D>): (r: seq<Row<D>>)
    ensures forall i :: 0 <= i < |r| ==> exists k :: k in t.rows && t.rows[k] == r[i]
    ensures Valid(t) ==> forall i :: 0 <= i < |r| ==> r[i].id in t.rows && t.rows[r[i].id] == r[i]
  {
    var ids := IdsBelow(t.rows, t.nextId);
    var r := seq(|ids|, i requires 0 <= i < |ids| => t.rows[ids[i]]);
    assert forall i :: 0 <= i < |r| ==> r[i] == t.rows[ids[i]];
    forall i | 0 <= i < |r|
      ensures exists k :: k in t.rows && t.rows[k] == r[i]
    {
      var k := ids[i];
      assert k in t.rows && t.rows[k] == r[i];
    }
    r
  }

  /** On a valid table the listing holds every row exactly once, newest first. */
  lemma FindAllNewestFirst<D>(t: Table<D>)
    requires Valid(t)
    ensures forall k :: k in t.rows ==> exists i :: 0 <= i < |FindAll(t)| && FindAll(t)[i] == t.rows[k]
    ensures forall i, j :: 0 <= i < j < |FindAll(t)| ==>
              FindAll(t)[i].createdAt > FindAll(t)[j].createdAt
    ensures forall i, j :: 0 <= i < j < |FindAll(t)| ==> FindAll(t)[i] != FindAll(t)[j]
  {
    var ids := IdsBelow(t.rows, t.nextId);
    IdsBelowDescending(t.rows, t.nextId);
    var r := FindAll(t);
    assert |r| == |ids|;
    forall k | k in t.rows
      ensures exists i :: 0 <= i < |r| && r[i] == t.rows[k]
    {
      assert k in ids;
      var i :| 0 <= i < |ids| && ids[i] == k;
      assert r[i] == t.rows[k];
    }
    forall i, j | 0 <= i < j < |r|
      ensures r[i].createdAt > r[j].createdAt
    {
      assert r[i] == t.rows[ids[i]] && r[j] == t.rows[ids[j]];
      assert ids[j] < ids[i];
    }
  }
}

=== FILE: UserController.dfy ===
/**
 The user request handlers: signup with its validation chain, reads that strip
 the password digest, partial update and delete. Each handler is a function of
 the request, the `users` table and the injected capabilities (the password
 hash, the environment, the clock text and the mail transport).
 */
module UserController {
  import opened Js
  import opened Table
  import opened Http
  import opened EmailService
  import opened UserModel
  import Server

  /** The signup request body. */
  datatype SignUpInput = SignUpInput(
    firstName: Option<string>,
    lastName: Option<string>,
    email: Option<string>,
    phone: Option<string>,
    password: Option<string>,
    confirmPassword: Option<string>,
    agreeToTerms: Option<bool>
  )

  const AllFieldsRequired: string := "All fields are required"
  const PasswordsDiffer: string := "Passwords do not match"
  const TermsRequired: string := "You must agree to the terms and conditions"
  const EmailRegistered: string := "Email already registered"
  const AccountCreated: string :=
    "Account created successfully! We have received your information and will get back to you soon."
  const UserNotFound: string := "User not found"
  const UserUpdated: string := "User updated successfully"
  const UserDeleted: string := "User deleted successfully"

  /** The first check: every required field is truthy. */
  predicate HasRequired(input: SignUpInput)
  {
    && Truthy(input.firstName)
    && Truthy(input.lastName)
    && Truthy(input.email)
    && Truthy(input.phone)
    && Truthy(input.password)
  }

  /** All three validation checks pass. */
  predicate Accepted(input: SignUpInput)
  {
    HasRequired(input) && input.password == input.confirmPassword && TruthyBool(input.agreeToTerms)
  }

  /** A stored user serialised with all its columns, as `RETURNING *` gives it. */
  function UserRecord(row: UserRow): map<string, Json>
  {
    map[
      "id" := Num(row.id),
      "firstName" := Str(row.data.firstName),
      "lastName" := Str(row.data.lastName),
      "email" := Str(row.data.email),
      "phone" := Str(row.data.phone),
      "password" := Str(row.data.password),
      "agreeToTerms" := Bool(row.data.agreeToTerms),
      "createdAt" := Num(row.createdAt),
      "updatedAt" := Num(row.updatedAt)
    ]
  }

  /** `const { password, ...rest } = user`: the record without its password. */
  function WithoutPassword(record: map<string, Json>): (rest: map<string, Json>)
    ensures "password" !in rest
    ensures rest.Keys == record.Keys - {"password"}
    ensures forall k :: k in rest ==> rest[k] == record[k]
  {
    record - {"password"}
  }

  /** The user object in the signup response: five chosen columns. */
  function PublicUser(row: UserRow): (r: map<string, Json>)
    ensures r.Keys == {"id", "firstName", "lastName", "email", "phone"}
    ensures forall k :: k in r ==> r[k] == UserRecord(row)[k]
  {
    map[
      "id" := Num(row.id),
      "firstName" := Str(row.data.firstName),
      "lastName" := Str(row.data.lastName),
      "email" := Str(row.data.email),
      "phone" := Str(row.data.phone)
    ]
  }

  const NewUserSubject: string := "New User Registration"
  const NewUserMessage: string := "A new user has signed up: "
  const NewUserServiceType: string := "Other"

  /** What the admin is told about a new user. */
  function SignUpNotice(user: UserData): NoticeData
  {
    NoticeData(
      user.firstName, user.lastName, user.email, user.phone,
      Some(NewUserSubject),
      NewUserMessage + user.firstName + " " + user.lastName + " (" + user.email + ")",
      Some(NewUserServiceType))
  }

  /** The two notifications `signUp` attempts for a new user, in order: the
      admin notification about the new row, then the acknowledgement to the
      user's own address, greeted by first name or, failing that, by email.
      Each carries the transport's own answer. */
  function NotifySignUp(env: Env, user: UserData, submittedOn: string, transport: Mail -> Delivery): (mails: seq<Sent>)
    ensures |mails| == 2
    ensures mails[0].mail.from == Sender(env) && mails[1].mail.from == Sender(env)
    ensures mails[0].mail.to == AdminRecipient(env) && mails[0].mail.subject == AdminSubject(SignUpNotice(user))
    ensures mails[0].mail.html == AdminHtml(SignUpNotice(user), submittedOn)
    ensures mails[1].mail.to == user.email && mails[1].mail.subject == ClientSubject
    ensures mails[1].mail.html == ClientHtml(ClientName(user.firstName, user.email))
    ensures mails[0].delivery == transport(mails[0].mail) && mails[1].delivery == transport(mails[1].mail)
  {
    var admin := SendContactFormToAdmin(env, SignUpNotice(user), submittedOn, transport);
    var client := SendResponseToClient(env, user.email, ClientName(user.firstName, user.email), transport);
    [admin, client]
  }

  /** The 201 outcome of a signup: a new row under the next id holding `data`,
      every other row kept, the public columns in the body, and the two
      notifications about the new row attempted, the acknowledgement to the
      new address. */
  ghost predicate Registered(t: Users, r: Outcome<UserData>, data: UserData, env: Env,
                             submittedOn: string, transport: Mail -> Delivery)
  {
    && r.response.status == 201
    && t.nextId in r.table.rows
    && r.table.rows == t.rows[t.nextId := r.table.rows[t.nextId]]
    && r.table.rows[t.nextId].data == data
    && r.response.body == Obj(map["message" := Str(AccountCreated), "user" := Obj(PublicUser(r.table.rows[t.nextId]))])
    && r.mails == NotifySignUp(env, data, submittedOn, transport)
  }

  /** The part of `signUp` after validation: create the user, attempt both
      notifications, answer 201 with the public columns. A create that hits the
      UNIQUE constraint goes to the error middleware instead; it stores nothing
      and sends nothing, but the id it drew is spent. */
  function Register(t: Users, n: NewUser, hash: string -> string, env: Env,
                    submittedOn: string, transport: Mail -> Delivery): (r: Outcome<UserData>)
    ensures r.response.status == 201 <==> !EmailTaken(t, n.email)
    ensures r.response.status != 201 ==>
              && r.response == Response(409, Message("Duplicate entry"))
              && r.table == ConsumeId(t) && r.mails == []
    ensures r.response.status == 201 ==>
              Registered(t, r, UserData(n.firstName, n.lastName, n.email, n.phone, hash(n.password), n.agreeToTerms), env,
                         submittedOn, transport)
    ensures Invariant(t) ==> Invariant(r.table)
  {
    var created := Create(t, n, hash);
    match created
    case Err(refused) =>
      assert refused.error.code == Some(UniqueViolation);
      Outcome(Server.HandleError(refused.error), refused.table, [])
    case Ok(ins) =>
      var user := ins.row;
      Outcome(Response(201, Obj(map["message" := Str(AccountCreated), "user" := Obj(PublicUser(user))])),
              ins.table, NotifySignUp(env, user.data, submittedOn, transport))
  }

  /** The validation chain of `signUp`: the message of the first check that
      fails, in the order required fields, password confirmation, terms, or
      none when the input is accepted. */
  function FirstFailure(input: SignUpInput): (m: Option<string>)
    ensures m.None? <==> Accepted(input)
    ensures m == Some(AllFieldsRequired) <==> !HasRequired(input)
    ensures m == Some(PasswordsDiffer) <==> HasRequired(input) && input.password != input.confirmPassword
    ensures m == Some(TermsRequired) <==>
              HasRequired(input) && input.password == input.confirmPassword && !TruthyBool(input.agreeToTerms)
  {
    if !HasRequired(input) then Some(AllFieldsRequired)
    else if input.password != input.confirmPassword then Some(PasswordsDiffer)
    else if !TruthyBool(input.agreeToTerms) then Some(TermsRequired)
    else None
  }

  /** `signUp`. The first failing check answers 400 with its own message; a
      taken email answers 409; only then is the user created, both
      notifications are attempted whatever becomes of them, and 201 returns the
      public columns. */
  function SignUp(t: Users, input: SignUpInput, hash: string -> string, env: Env,
                  submittedOn: string, transport: Mail -> Delivery): (r: Outcome<UserData>)
    ensures r.response.status == 400 <==> !Accepted(input)
    ensures r.response.status == 400 ==> r.response.body == Message(FirstFailure(input).value)
    ensures r.response.status == 409 <==> Accepted(input) && EmailTaken(t, input.email.value)
    ensures r.response.status == 201 <==> Accepted(input) && !EmailTaken(t, input.email.value)
    ensures r.response.status != 201 ==> r.table.rows == t.rows && r.mails == []
    ensures r.response.status == 400 ==> r.table == t
    ensures r.response.status == 201 ==>
              Registered(t, r, UserData(input.firstName.value, input.lastName.value, input.email.value,
                                        input.phone.value, hash(input.password.value), true), env,
                         submittedOn, transport)
    ensures Invariant(t) ==> Invariant(r.table)
  {
    var failure := FirstFailure(input);
    if failure.Some? then Reply(t, 400, failure.value)
    else if FindByEmail(t, input.email.value).Some? then Reply(t, 409, EmailRegistered)
    else
      Register(t, NewUser(input.firstName.value, input.lastName.value, input.email.value,
                          input.phone.value, input.password.value, true), hash, env, submittedOn, transport)
  }

  /** On a valid table a conflict is always the handler's own check, never the
      constraint failure: the body is "Email already registered" and the table,
      its id sequence included, is untouched. */
  lemma {:induction false} SignUpConflictMessage(t: Users, input: SignUpInput, hash: string -> string, env: Env,
                                                 submittedOn: string, transport: Mail -> Delivery)
    requires Valid(t)
    ensures SignUp(t, input, hash, env, submittedOn, transport).response.status == 409 ==>
              && SignUp(t, input, hash, env, submittedOn, transport).response.body == Message(EmailRegistered)
              && SignUp(t, input, hash, env, submittedOn, transport).table == t
  {
    if Accepted(input) && FindByEmail(t, input.email.value).None? {
      assert !EmailTaken(t, input.email.value);
    }
  }

  /** Notification failures are swallowed: the response and the table do not
      depend on what the transport reports, and both mails are attempted. */
  lemma SignUpIgnoresDelivery(t: Users, input: SignUpInput, hash: string -> string, env: Env,
                              submittedOn: string, tr1: Mail -> Delivery, tr2: Mail -> Delivery)
    ensures SignUp(t, input, hash, env, submittedOn, tr1).response == SignUp(t, input, hash, env, submittedOn, tr2).response
    ensures SignUp(t, input, hash, env, submittedOn, tr1).table == SignUp(t, input, hash, env, submittedOn, tr2).table
    ensures |SignUp(t, input, hash, env, submittedOn, tr1).mails| == |SignUp(t, input, hash, env, submittedOn, tr2).mails|
  {
  }

  /** A second signup with the same email is refused with 409 and stores nothing. */
  lemma {:induction false} SignUpTwiceConflicts(t: Users, input: SignUpInput, again: SignUpInput, hash: string -> string,
                                                env: Env, submittedOn: string, transport: Mail -> Delivery)
    requires Invariant(t)
    requires Accepted(input) && !EmailTaken(t, input.email.value)
    requires Accepted(again) && again.email == input.email
    ensures var first := SignUp(t, input, hash, env, submittedOn, transport);
            var second := SignUp(first.table, again, hash, env, submittedOn, transport);
            && second.response == Response(409, Message(EmailRegistered))
            && second.table == first.table
  {
    var first := SignUp(t, input, hash, env, submittedOn, transport);
    var row := first.table.rows[t.nextId];
    assert row.data.email == input.email.value;
    assert EmailTaken(first.table, again.email.value);
  }

  /** `getUser`: 404 when no row has the id, otherwise the row without its password. */
  function GetUser(t: Users, id: nat): (r: Response)
    ensures r.status == 200 <==> id in t.rows
    ensures r.status != 200 ==> r == Response(404, Message(UserNotFound))
    ensures r.status == 200 ==>
              && r.body.Obj?
              && "password" !in r.body.fields
              && r.body.fields.Keys == UserRecord(t.rows[id]).Keys - {"password"}
              && forall k :: k in r.body.fields ==> r.body.fields[k] == UserRecord(t.rows[id])[k]
  {
    match FindById(t, id)
    case None => Response(404, Message(UserNotFound))
    case Some(user) => Response(200, Obj(WithoutPassword(UserRecord(user))))
  }

  /** `getAllUsers`: every listed row, in listing order, each without its password. */
  function GetAllUsers(t: Users): (r: Response)
    ensures r.status == 200 && r.body.Arr?
    ensures |r.body.items| == |FindAll(t)|
    ensures forall i :: 0 <= i < |r.body.items| ==>
              && r.body.items[i].Obj?
              && "password" !in r.body.items[i].fields
              && r.body.items[i].fields.Keys == UserRecord(FindAll(t)[i]).Keys - {"password"}
              && forall k :: k in r.body.items[i].fields ==> r.body.items[i].fields[k] == UserRecord(FindAll(t)[i])[k]
  {
    var users := FindAll(t);
    Response(200, Arr(seq(|users|, i requires 0 <= i < |users| => Obj(WithoutPassword(UserRecord(users[i]))))))
  }

  /** The i-th listed user carries the creation time of the i-th listed row. */
  lemma ListedCreatedAt(t: Users, i: nat)
    requires i < |FindAll(t)|
    ensures var items := GetAllUsers(t).body.items;
            && i < |items|
            && "createdAt" in items[i].fields
            && items[i].fields["createdAt"] == Num(FindAll(t)[i].createdAt)
  {
    var row := FindAll(t)[i];
    var fields := GetAllUsers(t).body.items[i].fields;
    assert "createdAt" in UserRecord(row) && UserRecord(row)["createdAt"] == Num(row.createdAt);
    assert "createdAt" in fields.Keys;
  }

  /** The user list keeps the order of the listed rows' creation times. */
  ghost predicate ItemsNewestFirst(items: seq<Json>)
  {
    forall i, j :: 0 <= i < j < |items| ==>
      && items[i].Obj? && items[j].Obj?
      && "createdAt" in items[i].fields && "createdAt" in items[j].fields
      && items[i].fields["createdAt"].Num? && items[j].fields["createdAt"].Num?
      && items[i].fields["createdAt"].n > items[j].fields["createdAt"].n
  }

  /** Serialising a newest-first row list yields a newest-first user list. */
  lemma {:induction false} ListedInRowOrder(t: Users)
    requires forall i, j :: 0 <= i < j < |FindAll(t)| ==> FindAll(t)[i].createdAt > FindAll(t)[j].createdAt
    ensures ItemsNewestFirst(GetAllUsers(t).body.items)
  {
    var items := GetAllUsers(t).body.items;
    forall i, j | 0 <= i < j < |items|
      ensures && items[i].Obj? && items[j].Obj?
              && "createdAt" in items[i].fields && "createdAt" in items[j].fields
              && items[i].fields["createdAt"].Num? && items[j].fields["createdAt"].Num?
              && items[i].fields["createdAt"].n > items[j].fields["createdAt"].n
    {
      ListedCreatedAt(t, i);
      ListedCreatedAt(t, j);
    }
  }

  /** On a valid table the user list is newest first. */
  lemma GetAllUsersNewestFirst(t: Users)
    requires Valid(t)
    ensures ItemsNewestFirst(GetAllUsers(t).body.items)
  {
    FindAllNewestFirst(t);
    ListedInRowOrder(t);
  }

  /** On a valid table every stored user is listed, without its password. */
  lemma {:induction false} GetAllUsersComplete(t: Users)
    requires Valid(t)
    ensures var items := GetAllUsers(t).body.items;
            forall k :: k in t.rows ==>
              exists i :: 0 <= i < |items| && items[i] == Obj(WithoutPassword(UserRecord(t.rows[k])))
  {
    var rows := FindAll(t);
    var items := GetAllUsers(t).body.items;
    assert forall k :: k in t.rows ==> exists i :: 0 <= i < |rows| && rows[i] == t.rows[k] by {
      FindAllNewestFirst(t);
    }
    forall k | k in t.rows
      ensures exists i :: 0 <= i < |items| && items[i] == Obj(WithoutPassword(UserRecord(t.rows[k])))
    {
      var i :| 0 <= i < |rows| && rows[i] == t.rows[k];
      assert items[i] == Obj(WithoutPassword(UserRecord(t.rows[k])));
    }
  }

  /** `updateUser` as the code has it: the 200 body carries the updated row as
      `RETURNING *` produced it, password digest included. */
  function UpdateUserAsWritten(t: Users, id: nat, u: UserUpdate): (r: Outcome<UserData>)
    ensures r.response.status == 404 <==> Supplied(u) == [] || id !in t.rows
    ensures r.response.status == 404 || r.response.status == 200
    ensures r.response.status == 404 ==> r.table == t
    ensures r.response.status == 200 ==>
              && id in t.rows && id in r.table.rows
              && r.table.rows == t.rows[id := r.table.rows[id]]
              && r.table.rows[id] == t.rows[id].(data := Merge(t.rows[id].data, u), updatedAt := t.clock)
              && r.response.body == Obj(map["message" := Str(UserUpdated), "user" := Obj(UserRecord(r.table.rows[id]))])
    ensures r.mails == []
    ensures Invariant(t) ==> Invariant(r.table)
  {
    var updated := UserModel.UpdateUser(t, id, u);
    match updated.user
    case None => Reply(t, 404, UserNotFound)
    case Some(user) =>
      Outcome(Response(200, Obj(map["message" := Str(UserUpdated), "user" := Obj(UserRecord(user))])), updated.table, [])
  }

  /** The as-written handler sends the stored password digest back to the client. */
  lemma UpdateUserAsWrittenLeaksDigest(t: Users, id: nat, u: UserUpdate)
    requires id in t.rows && Supplied(u) != []
    ensures var body := UpdateUserAsWritten(t, id, u).response.body;
            && body.Obj? && "user" in body.fields && body.fields["user"].Obj?
            && "password" in body.fields["user"].fields
            && body.fields["user"].fields["password"] == Str(t.rows[id].data.password)
  {
  }

  /** `updateUser`, with the digest stripped from the response as the read
      handlers do: 404 exactly when the repository returns null (no truthy
      field, or no such id) and then nothing changes; otherwise 200 with the
      merged row. */
  function UpdateUser(t: Users, id: nat, u: UserUpdate): (r: Outcome<UserData>)
    ensures r.response.status == 404 <==> Supplied(u) == [] || id !in t.rows
    ensures r.response.status == 404 || r.response.status == 200
    ensures r.response.status == 404 ==> r.table == t && r.response.body == Message(UserNotFound)
    ensures r.response.status == 200 ==>
              && id in t.rows && id in r.table.rows
              && r.table.rows == t.rows[id := r.table.rows[id]]
              && r.table.rows[id].data == Merge(t.rows[id].data, u)
              && r.table.rows[id] == t.rows[id].(data := Merge(t.rows[id].data, u), updatedAt := t.clock)
              && r.response.body == Obj(map["message" := Str(UserUpdated),
                                            "user" := Obj(WithoutPassword(UserRecord(r.table.rows[id])))])
    ensures r.response.status == 200 ==> "password" !in r.response.body.fields["user"].fields
    ensures r.mails == []
    ensures Invariant(t) ==> Invariant(r.table)
  {
    var updated := UserModel.UpdateUser(t, id, u);
    match updated.user
    case None => Reply(t, 404, UserNotFound)
    case Some(user) =>
      Outcome(Response(200, Obj(map["message" := Str(UserUpdated), "user" := Obj(WithoutPassword(UserRecord(user)))])),
              updated.table, [])
  }

  /** `deleteUser`: 404 exactly when no row was removed; after a 200 the user is gone. */
  function DeleteUser(t: Users, id: nat): (r: Outcome<UserData>)
    ensures r.response.status == 404 <==> id !in t.rows
    ensures r.response.status == 404 || r.response.status == 200
    ensures r.response.status == 404 ==> r.table == t && r.response.body == Message(UserNotFound)
    ensures r.response.status == 200 ==> r.response.body == Message(UserDeleted)
    ensures r.response.status == 200 ==> GetUser(r.table, id).status == 404
    ensures forall k :: k in t.rows && k != id ==> k in r.table.rows && r.table.rows[k] == t.rows[k]
    ensures r.response.status == 200 ==> r.table == t.(rows := t.rows - {id})
    ensures r.mails == []
    ensures Invariant(t) ==> Invariant(r.table)
  {
    var removed := UserModel.DeleteUser(t, id);
    if !removed.deleted then Reply(t, 404, UserNotFound)
    else Outcome(Response(200, Message(UserDeleted)), removed.table, [])
  }
}

=== FILE: UserModel.dfy ===
/**
 The user repository over the `users` table: create (storing the password's
 digest), lookups by email and id, the newest-first listing, the partial update
 with its numbered SET clauses, and delete.
 */
module UserModel {
  import opened Js
  import opened Table

  /** The columns of `users` besides the generated ones. `password` holds the digest. */
  datatype UserData = UserData(
    firstName: string,
    lastName: string,
    email: string,
    phone: string,
    password: string,
    agreeToTerms: bool
  )

  type UserRow = Row<UserData>
  type Users = Table<UserData>

  /** What `create` receives: the plaintext password among the other columns. */
  datatype NewUser = NewUser(
    firstName: string,
    lastName: string,
    email: string,
    phone: string,
    password: string,
    agreeToTerms: bool
  )

  /** The UNIQUE constraint on `email`. */
  ghost predicate UniqueEmails(t: Users)
  {
    forall j, k :: j in t.rows && k in t.rows && j != k ==> t.rows[j].data.email != t.rows[k].data.email
  }

  /** Everything the `users` table guarantees. */
  ghost predicate Invariant(t: Users)
  {
    Valid(t) && UniqueEmails(t)
  }

  /** Some stored user has this email. */
  predicate EmailTaken(t: Users, email: string)
  {
    exists k :: k in t.rows && t.rows[k].data.email == email
  }

  /** The error Postgres raises when an INSERT repeats an email. */
  const DuplicateEmail: AppError :=
    AppError(Some(UniqueViolation), None, Some("duplicate key value violates unique constraint \"users_email_key\""))

  /** `User.create`: hashes the password and inserts the row. The UNIQUE
      constraint rejects a repeated email with SQLSTATE 23505, after the
      SERIAL sequence has already handed out (and lost) the next id. */
  function Create(t: Users, u: NewUser, hash: string -> string): (r: Result<Inserted<UserData>, Refused<UserData>>)
    ensures r.Err? <==> EmailTaken(t, u.email)
    ensures r.Err? ==> r.error.error.code == Some(UniqueViolation)
    ensures r.Err? ==> r.error.table.rows == t.rows && r.error.table.nextId == t.nextId + 1
    ensures r.Err? && Invariant(t) ==> Invariant(r.error.table)
    ensures r.Ok? ==> r.value.row.data.password == hash(u.password)
    ensures r.Ok? ==> && r.value.row.data.firstName == u.firstName
                      && r.value.row.data.lastName == u.lastName
                      && r.value.row.data.email == u.email
                      && r.value.row.data.phone == u.phone
                      && r.value.row.data.agreeToTerms == u.agreeToTerms
    ensures r.Ok? ==> r.value.row.id == t.nextId && r.value.table.rows == t.rows[t.nextId := r.value.row]
    ensures r.Ok? && Valid(t) ==> r.value.row.id !in t.rows
    ensures r.Ok? && Invariant(t) ==> Invariant(r.value.table)
  {
    if EmailTaken(t, u.email) then Err(Refused(ConsumeId(t), DuplicateEmail))
    else
      var ins := Insert(t, UserData(u.firstName, u.lastName, u.email, u.phone, hash(u.password), u.agreeToTerms));
      Ok(ins)
  }

  /** The first row of `rows` with this email. */
  function FirstWithEmail(rows: seq<UserRow>, email: string): (r: Option<UserRow>)
    ensures r.Some? ==> r.value in rows && r.value.data.email == email
    ensures r.None? <==> forall i :: 0 <= i < |rows| ==> rows[i].data.email != email
  {
    if rows == [] then None
    else if rows[0].data.email == email then Some(rows[0])
    else FirstWithEmail(rows[1..], email)
  }

  /** A row found in the listing is a stored row. */
  lemma FoundIsStored(t: Users, email: string)
    ensures var found := FirstWithEmail(FindAll(t), email);
            found.Some? ==> EmailTaken(t, email)
  {
    var all := FindAll(t);
    var found := FirstWithEmail(all, email);
    if found.Some? {
      var i :| 0 <= i < |all| && all[i] == found.value;
      var k :| k in t.rows && t.rows[k] == all[i];
      assert t.rows[k].data.email == email;
    }
  }

  /** On a valid table a taken email is found in the listing. */
  lemma TakenIsFound(t: Users, email: string)
    requires Valid(t)
    ensures EmailTaken(t, email) ==> FirstWithEmail(FindAll(t), email).Some?
  {
    if EmailTaken(t, email) {
      var k :| k in t.rows && t.rows[k].data.email == email;
      FindAllNewestFirst(t);
      var i :| 0 <= i < |FindAll(t)| && FindAll(t)[i] == t.rows[k];
      assert FindAll(t)[i].data.email == email;
    }
  }

  /** `User.findByEmail`: a row with this email, or null. On a valid table it
      finds one exactly when the email is taken, and with unique emails it is
      the one row holding that email. */
  function FindByEmail(t: Users, email: string): (r: Option<UserRow>)
    ensures r.Some? ==> r.value.data.email == email && EmailTaken(t, email)
    ensures Valid(t) ==> (r.None? <==> !EmailTaken(t, email))
    ensures Valid(t) && r.Some? ==> r.value.id in t.rows && t.rows[r.value.id] == r.value
    ensures Invariant(t) && r.Some? ==> forall k :: k in t.rows && t.rows[k].data.email == email ==> k == r.value.id
  {
    var found := FirstWithEmail(FindAll(t), email);
    assert found.Some? ==> EmailTaken(t, email) by { FoundIsStored(t, email); }
    assert Valid(t) && EmailTaken(t, email) ==> found.Some? by {
      if Valid(t) { TakenIsFound(t, email); }
    }
    found
  }

  /** `User.findById`. */
  function FindById(t: Users, id: nat): (r: Option<UserRow>)
    ensures r.None? <==> id !in t.rows
    ensures r.Some? ==> r.value == t.rows[id]
    ensures Valid(t) && r.Some? ==> r.value.id == id
  {
    Find(t, id)
  }

  // ----- updateUser -----

  /** The columns a PUT may change. */
  datatype Column = FirstName | LastName | Phone

  /** One entry of the SET list: a column bound to placeholder `$n`, or the
      trailing `"updatedAt" = CURRENT_TIMESTAMP`. */
  datatype SetClause = Assign(column: Column, placeholder: nat) | RefreshUpdatedAt

  /** A bound parameter: a column's new text, or the id in the WHERE clause. */
  datatype Param = Text(text: string) | Key(id: nat)

  /** The UPDATE statement: the SET list and the values bound to $1, $2, ...;
      the WHERE clause uses the last placeholder, `$|values|`. */
  datatype Statement = Statement(clauses: seq<SetClause>, values: seq<Param>)

  /** The updatable fields of a PUT body, each possibly absent. */
  datatype UserUpdate = UserUpdate(firstName: Option<string>, lastName: Option<string>, phone: Option<string>)

  /** A field's contribution to an update: the column and its text when the value is truthy. */
  function Field(c: Column, v: Option<string>): (r: seq<(Column, string)>)
  {
    if Truthy(v) then [(c, v.value)] else []
  }

  /** The fields an update sets, in the order firstName, lastName, phone, with the values they get. */
  function Supplied(u: UserUpdate): seq<(Column, string)>
  {
    Field(FirstName, u.firstName) + Field(LastName, u.lastName) + Field(Phone, u.phone)
  }

  /** Appends `column = $n` and its value when `v` is truthy; n counts the values so far. */
  function AddIfTruthy(s: Statement, column: Column, v: Option<string>): Statement
  {
    if Truthy(v) then Statement(s.clauses + [Assign(column, |s.values| + 1)], s.values + [Text(v.value)])
    else s
  }

  /** `s` binds the fields `bound` to $1..$|bound|, in order, and nothing else. */
  ghost predicate Numbers(s: Statement, bound: seq<(Column, string)>)
  {
    && |s.clauses| == |bound|
    && |s.values| == |bound|
    && forall i :: 0 <= i < |bound| ==> s.clauses[i] == Assign(bound[i].0, i + 1) && s.values[i] == Text(bound[i].1)
  }

  /** Adding a field keeps the placeholders consecutive. */
  lemma AddIfTruthyNumbers(s: Statement, bound: seq<(Column, string)>, c: Column, v: Option<string>)
    requires Numbers(s, bound)
    ensures Numbers(AddIfTruthy(s, c, v), bound + Field(c, v))
  {
  }

  /** The fields supplied are at most the three updatable ones, and none are
      supplied exactly when no field is truthy. */
  lemma SuppliedCount(u: UserUpdate)
    ensures |Supplied(u)| <= 3
    ensures |Supplied(u)| == 0 <==> !Truthy(u.firstName) && !Truthy(u.lastName) && !Truthy(u.phone)
  {
  }

  /** Closing a numbered statement with the updatedAt refresh and the id. */
  lemma CloseNumbers(s: Statement, bound: seq<(Column, string)>, id: nat)
    requires Numbers(s, bound)
    ensures var c := Statement(s.clauses + [RefreshUpdatedAt], s.values + [Key(id)]);
            && |c.clauses| == |bound| + 1
            && |c.values| == |bound| + 1
            && (forall i :: 0 <= i < |bound| ==>
                  && c.clauses[i] == Assign(bound[i].0, i + 1)
                  && c.values[i] == Text(bound[i].1))
            && c.clauses[|bound|] == RefreshUpdatedAt
            && c.values[|bound|] == Key(id)
  {
  }

  /** The clause builder of `User.updateUser`: null when no field is truthy;
      otherwise the supplied fields bound to $1..$k in order, then the
      updatedAt refresh, with the id bound to $(k+1). */
  function BuildUpdate(id: nat, u: UserUpdate): (r: Option<Statement>)
    ensures r.None? <==> !Truthy(u.firstName) && !Truthy(u.lastName) && !Truthy(u.phone)
    ensures r.Some? ==>
              var k := |Supplied(u)|;
              && 1 <= k <= 3
              && |r.value.clauses| == k + 1
              && |r.value.values| == k + 1
              && (forall i :: 0 <= i < k ==>
                    && r.value.clauses[i] == Assign(Supplied(u)[i].0, i + 1)
                    && r.value.values[i] == Text(Supplied(u)[i].1))
              && r.value.clauses[k] == RefreshUpdatedAt
              && r.value.values[k] == Key(id)
  {
    var s0 := Statement([], []);
    var s1 := AddIfTruthy(s0, FirstName, u.firstName);
    var s2 := AddIfTruthy(s1, LastName, u.lastName);
    var s3 := AddIfTruthy(s2, Phone, u.phone);
    AddIfTruthyNumbers(s0, [], FirstName, u.firstName);
    AddIfTruthyNumbers(s1, [] + Field(FirstName, u.firstName), LastName, u.lastName);
    AddIfTruthyNumbers(s2, [] + Field(FirstName, u.firstName) + Field(LastName, u.lastName), Phone, u.phone);
    assert [] + Field(FirstName, u.firstName) + Field(LastName, u.lastName) + Field(Phone, u.phone) == Supplied(u);
    assert Numbers(s3, Supplied(u));
    SuppliedCount(u);
    CloseNumbers(s3, Supplied(u), id);
    if |s3.clauses| == 0 then None
    else Some(Statement(s3.clauses + [RefreshUpdatedAt], s3.values + [Key(id)]))
  }

  /** Every Assign clause refers to a placeholder bound to a text value. */
  predicate BindsText(clauses: seq<SetClause>, values: seq<Param>)
  {
    forall i :: 0 <= i < |clauses| && clauses[i].Assign? ==>
      1 <= clauses[i].placeholder <= |values| && values[clauses[i].placeholder - 1].Text?
  }

  function SetColumn(d: UserData, c: Column, v: string): UserData
  {
    match c
    case FirstName => d.(firstName := v)
    case LastName => d.(lastName := v)
    case Phone => d.(phone := v)
  }

  /** Executes a SET list against one row at time `now`. */
  function Apply(row: UserRow, clauses: seq<SetClause>, values: seq<Param>, now: nat): (r: UserRow)
    requires BindsText(clauses, values)
    ensures r.id == row.id && r.createdAt == row.createdAt
    ensures r.data.email == row.data.email && r.data.password == row.data.password
    ensures r.data.agreeToTerms == row.data.agreeToTerms
    decreases |clauses|
  {
    if clauses == [] then row
    else
      var next := match clauses[0]
        case RefreshUpdatedAt => row.(updatedAt := now)
        case Assign(c, p) => row.(data := SetColumn(row.data, c, values[p - 1].text));
      Apply(next, clauses[1..], values, now)
  }

  /** The field-level meaning of an update: each truthy field replaces the
      stored one, and everything else is kept. */
  function Merge(d: UserData, u: UserUpdate): UserData
  {
    d.(firstName := Or(u.firstName, d.firstName),
       lastName := Or(u.lastName, d.lastName),
       phone := Or(u.phone, d.phone))
  }

  /** Running the built statement changes exactly the truthy fields and
      refreshes updatedAt. */
  lemma ApplyMerges(row: UserRow, id: nat, u: UserUpdate, now: nat)
    requires BuildUpdate(id, u).Some?
    ensures BindsText(BuildUpdate(id, u).value.clauses, BuildUpdate(id, u).value.values)
    ensures Apply(row, BuildUpdate(id, u).value.clauses, BuildUpdate(id, u).value.values, now)
            == row.(data := Merge(row.data, u), updatedAt := now)
  {
    var s := BuildUpdate(id, u).value;
    assert BindsText(s.clauses, s.values);
    ApplySupplied(row, Supplied(u), s.clauses, s.values, 0, now);
    MergeIsFold(row.data, u);
  }

  /** Folding SetColumn over the supplied fields. */
  function SetAll(d: UserData, fields: seq<(Column, string)>): UserData
    decreases |fields|
  {
    if fields == [] then d else SetAll(SetColumn(d, fields[0].0, fields[0].1), fields[1..])
  }

  /** Clauses i.. of a built statement apply the supplied fields i.. and then the refresh. */
  lemma {:induction false} ApplySupplied(row: UserRow, fields: seq<(Column, string)>, clauses: seq<SetClause>,
                                         values: seq<Param>, i: nat, now: nat)
    requires i <= |fields|
    requires |clauses| == |fields| + 1 && |values| == |fields| + 1
    requires forall j :: 0 <= j < |fields| ==> clauses[j] == Assign(fields[j].0, j + 1) && values[j] == Text(fields[j].1)
    requires clauses[|fields|] == RefreshUpdatedAt
    requires BindsText(clauses, values)
    ensures BindsText(clauses[i..], values)
    ensures Apply(row, clauses[i..], values, now) == row.(data := SetAll(row.data, fields[i..]), updatedAt := now)
    decreases |fields| - i
  {
    assert BindsText(clauses[i..], values);
    if i == |fields| {
      assert clauses[i..][1..] == [];
    } else {
      var next := row.(data := SetColumn(row.data, fields[i].0, fields[i].1));
      assert clauses[i..][0] == Assign(fields[i].0, i + 1);
      assert clauses[i..][1..] == clauses[i + 1..];
      assert fields[i..][1..] == fields[i + 1..];
      ApplySupplied(next, fields, clauses, values, i + 1, now);
    }
  }

  /** Folding over two lists in a row is folding over their concatenation. */
  lemma {:induction false} SetAllConcat(d: UserData, a: seq<(Column, string)>, b: seq<(Column, string)>)
    ensures SetAll(d, a + b) == SetAll(SetAll(d, a), b)
    decreases |a|
  {
    if a == [] {
      assert a + b == b;
    } else {
      assert (a + b)[0] == a[0];
      assert (a + b)[1..] == a[1..] + b;
      SetAllConcat(SetColumn(d, a[0].0, a[0].1), a[1..], b);
    }
  }

  /** Folding the supplied fields is the field-level merge. */
  lemma MergeIsFold(d: UserData, u: UserUpdate)
    ensures SetAll(d, Supplied(u)) == Merge(d, u)
  {
    var f1 := Field(FirstName, u.firstName);
    var f2 := Field(LastName, u.lastName);
    var f3 := Field(Phone, u.phone);
    SetAllConcat(d, f1 + f2, f3);
    SetAllConcat(d, f1, f2);
    var d1 := SetAll(d, f1);
    var d2 := SetAll(d1, f2);
    assert d1 == d.(firstName := Or(u.firstName, d.firstName));
    assert d2 == d1.(lastName := Or(u.lastName, d.lastName));
    assert SetAll(d2, f3) == d2.(phone := Or(u.phone, d.phone));
  }

  /** The result of `User.updateUser`. */
  datatype Updated = Updated(table: Users, user: Option<UserRow>)

  /** `User.updateUser`: null, with the table untouched, when no field is truthy
      or no row has the id; otherwise the row with the truthy fields replaced and
      updatedAt refreshed, every other column and row kept. */
  function UpdateUser(t: Users, id: nat, u: UserUpdate): (r: Updated)
    ensures r.user.None? <==> Supplied(u) == [] || id !in t.rows
    ensures r.user.None? ==> r.table == t
    ensures r.user.Some? ==> r.user.value == t.rows[id].(data := Merge(t.rows[id].data, u), updatedAt := t.clock)
    ensures r.user.Some? ==> r.table.rows == t.rows[id := r.user.value]
    ensures Invariant(t) ==> Invariant(r.table)
  {
    match BuildUpdate(id, u)
    case None => Updated(t, None)
    case Some(s) =>
      var target := s.values[|s.values| - 1].id;
      if target in t.rows then
        ApplyMerges(t.rows[target], id, u, t.clock);
        var row := Apply(t.rows[target], s.clauses, s.values, t.clock);
        Updated(Put(t, target, row), Some(row))
      else
        Updated(t, None)
  }

  /** `User.deleteUser`: true exactly when the row existed; afterwards no row
      has the id and the other rows are unchanged. */
  function DeleteUser(t: Users, id: nat): (r: Removal<UserData>)
    ensures r.deleted <==> id in t.rows
    ensures FindById(r.table, id).None?
    ensures forall k :: k in t.rows && k != id ==> k in r.table.rows && r.table.rows[k] == t.rows[k]
    ensures r.table == t.(rows := t.rows - {id})
    ensures Invariant(t) ==> Invariant(r.table)
  {
    Remove(t, id)
  }
}
